=== FILE: README.md ===
# elev: policy parsing, the permit decision and password verification

A Dafny model of the two pieces of decision logic in `elev`, a `sudo`/`doas`-style
privilege-escalation tool:

- **The policy** (`src/config.rs`). The policy file is read line by line.
  Blank lines and `#` comments are skipped, and every other trimmed line goes
  through `parse_rule`, which reads `permit [user|:group] [as X] [cmd Y]` word by
  word. `Config::is_permitted` scans the rules in file order and answers yes at the
  first one whose subject, target and command all match.
- **Password verification** (`src/auth.rs`). `prompt_password` reads a line from
  the terminal and drops its trailing whitespace. `verify_password` skips
  everything when no password is required. It refuses at once when the account is
  locked. Otherwise it runs up to three rounds of prompt, PAM context creation,
  `authenticate` and `acct_mgmt`. It counts rejected passwords, gives up on an
  absent or empty password, and records the instant of a success. The line
  `prompt_password` reads is only tested for emptiness. It is never handed to PAM,
  which asks for the password again through its own conversation inside
  `authenticate`. So each round that reaches `authenticate` prompts twice, and
  whether `authenticate` succeeds does not depend on the line the model reads.

Files:

- `options.dfy`: the `Option` type.
- `text.dfy`: Rust's whitespace class, `trim`, `trim_end` and `split_whitespace`.
- `policy.dfy`: `Rule`, `Config`, `parse_rule`, the line loop of `Config::load`,
  `Config::is_permitted`, and the properties of each.
- `auth.dfy`: `AuthState`, `prompt_password`, and `verify_password` as a loop over
  outcomes supplied from outside.

Some inputs are parameters of the model, so nothing depends on the operating system:
- The policy file is the sequence of its lines.
- The actor's groups are a sequence of names.
- The terminal and each PAM call are a sequence of `Round` values. Each `Round` holds
  what the terminal yields and whether context creation, `authenticate` and
  `acct_mgmt` succeed.
- Rounds beyond the end of that sequence read as end of input. At end of input,
  `read_line` returns an empty line, and the loop treats that as no password.
- The clock is an `int` parameter, `now`.

Rules are `permit` only and compare strings exactly: rules have no deny form,
priority, role, time window or command pattern. No lockout threshold or duration
is visible in the code.

## Model

| member | source | states |
|---|---|---|
| Text.TrimEnd | src/auth.rs:43 | the result is a prefix of the input, what it drops is all whitespace, and it does not end in whitespace |
| Text.Trim | src/config.rs:28 | the result is a contiguous slice of the line with only whitespace outside it, neither end is whitespace, and it is empty exactly when the line is all whitespace |
| Text.WordsAreWords | src/config.rs:74 | every word `split_whitespace` yields is non-empty and whitespace-free, and there are no words exactly when the line is all whitespace |
| Text.WordsKeepVisible | src/config.rs:74 | the words concatenated are exactly the line's non-whitespace characters in order |
| Text.WordsSplitAtWhitespace | src/config.rs:74 | a whitespace character splits the word list at that point; together with `WordsOfWord` this fixes the word list of every string |
| Text.WordsOfWord | src/config.rs:74 | a non-empty whitespace-free string is a single word |
| Text.WordsOfTrim | src/config.rs:28-34 | trimming a line before splitting it does not change its words |
| Policy.ClausesReadBack | src/config.rs:94-111 | the option loop (`Clauses`, which carries no contract of its own) groups the words after the subject into clauses: a keyword with its value, a trailing keyword with no value, or a skipped non-keyword word; the result is well formed and reading it back gives the words exactly |
| Policy.ClausesOfAppend | src/config.rs:94-111 | words that follow complete clauses are read on their own, whatever comes before them |
| Policy.ClausesOfUnparse | src/config.rs:94-111 | the converse round trip: any well-formed clause list, written out as words and read again, comes back unchanged |
| Policy.ApplyClauses | src/config.rs:94-111 | the option clauses never touch the subject, and a target or command that changes is the value of one of the clauses |
| Policy.SubjectRule | src/config.rs:85-92 | the subject word sets exactly one of user and group and no option; it names a group exactly when it starts with `:`, and the word is recovered as `:` plus the group or as the user |
| Policy.ParseRule | src/config.rs:73-77 | `parse_rule` yields a rule exactly when the line's first word is `permit`, and trimming the line first changes nothing |
| Policy.ParseWords | src/config.rs:73-92 | no rule exactly when there are no words or the first is not `permit`; with only `permit` every field is absent; otherwise exactly one of user/group is set, `:name` giving the group without its colon and any other word, keywords included, giving the user |
| Policy.LastAssignmentWins | src/config.rs:94-111 | the target comes from the last `as` clause and the command from the last `cmd` clause; a field with no such clause keeps its previous value |
| Policy.ParsedOptions | src/config.rs:94-118 | a parsed rule's target and command come from the last `as` and `cmd` clauses of its line, and are absent when the line has none |
| Policy.TrailingWordChangesNothing | src/config.rs:85-110 | on a line that already has a subject and does not end with a keyword waiting for its value, appending a keyword or any other word leaves the parsed rule unchanged |
| Policy.KeywordAsSubject | src/config.rs:85-92 | `permit as X` and `permit cmd X` name the user `as` or `cmd`, and set no target and no command |
| Policy.LineRule | src/config.rs:28-36 | the blank/comment filter only drops lines: a rule it keeps is the one the untrimmed line parses to, and an all-whitespace line yields nothing |
| Policy.LineRuleMeaning | src/config.rs:28-36 | a line yields a rule exactly when its first word is `permit`, and that rule is the one its untrimmed text parses to; blank and comment lines yield none |
| Policy.Load | src/config.rs:20-40 | loading never yields more rules than the file has lines |
| Policy.LoadedRulesComeFromLines | src/config.rs:26-37 | every loaded rule is the rule of some line of the file |
| Policy.LoadKeepsFileOrder | src/config.rs:24-39 | the rules of two consecutive stretches of lines are the first stretch's rules followed by the second's, so rules keep file order |
| Policy.SkippedLineContributesNothing | src/config.rs:30-32 | removing a blank or comment line from anywhere in the file does not change the loaded policy |
| Policy.Matches | src/config.rs:44-64 | a match needs a subject, and a present target or command is equal to the request's; with neither present a match is exactly a subject match |
| Policy.MatchesWhenAllTestsPass | src/config.rs:44-66 | conversely, a rule matches whenever its subject matches and every target or command it names agrees with the request |
| Policy.GroupArmAfterOtherUser | src/config.rs:44-48 | the user arm's guard falls through: a rule naming another user still matches an actor who holds its group |
| Policy.FullRuleMatches | src/config.rs:73-118 | end to end, the line `permit u as t cmd c` (with `u` not starting with `:`) yields a rule that lets `u` run `c` as `t`, whatever the groups |
| Policy.IsPermitted | src/config.rs:42-70 | the first-match scan answers yes exactly when some rule of the policy matches the request |
| Policy.SubjectlessRuleMatchesNobody | src/config.rs:44-52 | a rule with neither user nor group matches no request |
| Policy.BarePermitPermitsNothing | src/config.rs:83-92 | a line holding only `permit` yields a rule, and that rule matches no request |
| Policy.EitherSubjectSuffices | src/config.rs:44-48 | when a rule names both a user and a group, the subject matches if either one does |
| Policy.TargetAndCommandTests | src/config.rs:54-64 | a present target or command must equal the request's exactly, and an absent one accepts any value |
| Policy.PermitsIgnoresOrderAndDuplicates | src/config.rs:42-70 | the decision depends only on which rules are present, not on their order or repetition |
| Policy.PermitsIgnoresPermutation | src/config.rs:42-70 | permuting the rules never changes the decision |
| Policy.AddingRuleKeepsPermission | src/config.rs:43-67 | inserting a rule anywhere never turns a permitted request into a refused one |
| Policy.EmptyPolicyPermitsNothing | src/config.rs:69 | with no rules nothing is permitted |
| Policy.LoadedPolicyDecision | src/config.rs:26-70 | over a loaded file, a request is permitted exactly when some line of the file yields a rule that matches it |
| Auth.PromptPassword | src/auth.rs:32-50 | absent when no password is required; the process exits exactly when a password is required and there is no terminal; a line that is read always gives a password, namely that line without its trailing whitespace |
| Auth.Classify | src/auth.rs:69-105 | how one pass of the loop body ends: the process exits exactly when there is no terminal; `authenticate` is reached only with a line read and a PAM context; the password is rejected exactly when `authenticate` is reached and fails |
| Auth.ReachesAuthenticateExactly | src/auth.rs:69-105 | `authenticate` is reached exactly when a non-blank line was read and the PAM context was created; a wrong password there is a rejection, and a refusal by `acct_mgmt` after a success refuses the account |
| Auth.VerifyPassword | src/auth.rs:53-115 | bypass grants with nothing asked or changed; lockout denies with nothing asked or changed; otherwise rounds run while the password is rejected, at most three, and the verdict is that of the first round ending any other way; failures grow by exactly the number of rejected rounds; `authenticate` runs at most three times; only a granted verification records `now` as the last authentication |
| Auth.NoPasswordNeverReachesPam | src/auth.rs:69-75 | an absent or empty password, or a missing terminal, ends the round before `authenticate`, so it adds no failure and grants nothing |
| Auth.NoPasswordExactly | src/auth.rs:42-73 | a round ends for want of a password exactly when reading failed or the line holds nothing but whitespace |
| Auth.EndOfInputIsNoPassword | src/auth.rs:42-73 | once the terminal has nothing more to give, a round counts as no password |
| Auth.OnlyFullSuccessGrants | src/auth.rs:69-110 | a round grants exactly when a non-empty password was read and context creation, `authenticate` and `acct_mgmt` all succeed |

## Left out

- File opening and read errors in `Config::load` (`File::open`, `line?`): the model starts from the file's lines, so the `io::Error` returns are not modelled.
- The `password_required` flag is read from `Config` in `src/auth.rs`, but the `Config` struct in `src/config.rs` has no such field. The model passes it as a plain parameter.
- The call to `is_permitted` in `src/exec.rs` passes five arguments, while `src/config.rs` declares four parameters. Only the four-parameter form is modelled.
- Auth.IncrementFailedAttempts: a stand-in for `increment_failed_attempts`, whose body is elided in `src/auth.rs`: lines 22-29 hold only placeholder comments, and only its call at line 93 is written out. The model adds one to the counter and changes nothing else; nothing in the source confirms or refutes this.
- Auth.UpdateLastAuthenticated: a stand-in for `update_last_authenticated`, whose body is elided in `src/auth.rs`: lines 22-29 hold only placeholder comments, and only its call at line 108 is written out. The model records `now` and changes nothing else; nothing in the source confirms or refutes this.
- The bodies of the `AuthState` helpers are elided in `src/auth.rs`, whose lines 22-29 hold only placeholder comments: `new`, `check_timeout`, `check_lockout`, `increment_failed_attempts`, `update_last_authenticated`, timestamp-file load and store, and `get_roles_for_user`. In the model, `check_lockout` reads an opaque `locked` flag, `increment_failed_attempts` adds one to the counter, and `update_last_authenticated` sets the last-authenticated instant to `now`. No lockout threshold, lockout duration or timeout is assumed.
- Auth.VerifyPassword: the failure counter is an unbounded `nat` rather than Rust's `u32`. The increment's body is elided in `src/auth.rs`, so whether it wraps or saturates is unknown. So a counter within three of `u32::MAX` may behave differently in the source.
- The `timeout`, `username`, `groups` and `roles` fields of `AuthState` are not read by the code modelled, so they are not modelled. `lockout_time` is not read directly either, but `check_lockout` presumably reads it. The model's opaque `locked` flag stands for whatever `check_lockout` tests.
- Auth.VerifyPassword: the contract's `state'.locked == state.locked`, and the exact failure count after a success, hold because the model assumes that neither `increment_failed_attempts` nor `update_last_authenticated` changes what `check_lockout` reads. In the source these helpers may well set `lockout_time` or reset the counter; their bodies are elided in `src/auth.rs` (lines 22-29).
- The `user` argument of `verify_password` is the user PAM authenticates (the PAM service itself is `"elev"`), and it appears in log messages. PAM is replaced by the `Round` outcomes, so the argument is dropped.
- Logging and the messages printed to the terminal (`log_*`, `eprintln!`, `write!` of the prompt) are side effects only and are not modelled.
- `prompt_password` fails in several separate ways: `try_clone`, writing or flushing the prompt, and `read_line`. All of them become one `IoFailed` terminal outcome, because each one yields the same `None`.
- `process::exit(1)` when `/dev/tty` cannot be opened becomes the `Exited` verdict, because the process ends there and `verify_password` never returns.
- `src/main.rs`, `src/exec.rs`, `src/util.rs` and `src/logs.rs` (argument parsing, uid checks, switching user, running the command, the `id -Gn` group lookup, logging) are outside this model. They are OS plumbing, and the actor's groups are an input here.
- Rust strings are UTF-8 byte strings, but the model's strings are sequences of Unicode scalar values. Slicing off the one-byte `:` prefix therefore means the same thing in both.

=== FILE: auth.dfy ===
/**
 * Password verification: the prompt and the retry loop that asks PAM to
 * authenticate the invoking user, with the terminal and every PAM call
 * replaced by an outcome supplied from outside.
 */
module Auth {
  import opened Options
  import opened Text

  /** The part of the session state verification reads and writes. The
      lockout test is an opaque flag, `failedAttempts` a plain counter, and
      `lastAuthenticated` the instant of the last successful proof. */
  datatype AuthState = AuthState(failedAttempts: nat, locked: bool,
                                 lastAuthenticated: Option<int>)

  /** The retry budget of one invocation. */
  const MaxAttempts: nat := 3

  /** `check_lockout`. */
  function CheckLockout(s: AuthState): bool {
    s.locked
  }

  /** `increment_failed_attempts`: one more failure, nothing else changes. */
  function IncrementFailedAttempts(s: AuthState): (s': AuthState)
    ensures s'.failedAttempts == s.failedAttempts + 1
    ensures s'.locked == s.locked && s'.lastAuthenticated == s.lastAuthenticated
  {
    s.(failedAttempts := s.failedAttempts + 1)
  }

  /** `update_last_authenticated`, at the instant `now`: the success is recorded
      and nothing else changes. */
  function UpdateLastAuthenticated(s: AuthState, now: int): (s': AuthState)
    ensures s'.lastAuthenticated == Some(now)
    ensures s'.failedAttempts == s.failedAttempts && s'.locked == s.locked
  {
    s.(lastAuthenticated := Some(now))
  }

  // ---------------------------------------------------------------------------
  // The prompt
  // ---------------------------------------------------------------------------

  /** What the controlling terminal does when asked for a password: it cannot be
      opened, an I/O step on it fails, or a line is read. End of input reads as
      the empty line. */
  datatype Terminal = NoTerminal | IoFailed | LineRead(text: string)

  /** The result of `prompt_password`: an answer (absent or present), or the
      process exits because there is no terminal to ask on. */
  datatype Prompt = Answer(password: Option<string>) | Exit

  /** `prompt_password`. */
  function PromptPassword(passwordRequired: bool, tty: Terminal): (p: Prompt)
    ensures !passwordRequired ==> p == Answer(None)
    ensures p.Exit? <==> passwordRequired && tty.NoTerminal?
    ensures passwordRequired && tty.LineRead? ==> p.Answer? && p.password.Some?
    ensures p.Answer? && p.password.Some? ==>
              && tty.LineRead?
              && |p.password.value| <= |tty.text|
              && p.password.value == tty.text[..|p.password.value|]
              && AllWhitespace(tty.text[|p.password.value|..])
              && (p.password.value == [] || !IsWhitespace(p.password.value[|p.password.value| - 1]))
  {
    if !passwordRequired then Answer(None)
    else match tty
      case NoTerminal => Exit
      case IoFailed => Answer(None)
      case LineRead(text) => Answer(Some(TrimEnd(text)))
  }

  // ---------------------------------------------------------------------------
  // One round of the retry loop
  // ---------------------------------------------------------------------------

  /** The outside world during one round: what the terminal gives, and whether
      creating the PAM context, `authenticate` and `acct_mgmt` succeed. */
  datatype Round = Round(tty: Terminal, contextOk: bool, authenticateOk: bool, accountOk: bool)

  /** End of input (Ctrl-D on an empty line, or the terminal closing): `read_line`
      leaves the line empty. */
  const EndOfInput: Round := Round(LineRead(""), true, true, true)

  function RoundAt(rounds: seq<Round>, k: nat): Round {
    if k < |rounds| then rounds[k] else EndOfInput
  }

  /** How a round ends, read off its outcomes in the order the loop consults them. */
  datatype RoundEnd = TerminalMissing | NoPassword | InitFailed | Rejected | AccountRefused | Accepted

  function Classify(r: Round): (e: RoundEnd)
    ensures e == TerminalMissing <==> r.tty.NoTerminal?
    ensures Authenticates(e) ==> r.tty.LineRead? && r.contextOk
    ensures e == Rejected <==> Authenticates(e) && !r.authenticateOk
  {
    match PromptPassword(true, r.tty)
    case Exit => TerminalMissing
    case Answer(pw) =>
      if pw.None? || pw.value == [] then NoPassword
      else if !r.contextOk then InitFailed
      else if !r.authenticateOk then Rejected
      else if !r.accountOk then AccountRefused
      else Accepted
  }

  /** Whether `authenticate` is reached in a round that ended this way. */
  predicate Authenticates(e: RoundEnd) {
    e == Rejected || e == AccountRefused || e == Accepted
  }

  /** The result of `verify_password`. `Exited` is the process exit inside
      `prompt_password`: verification never returns then. */
  datatype Verdict = Granted | Denied | Exited

  /** The verdict a round that ends the loop gives. */
  function VerdictOf(e: RoundEnd): Verdict {
    match e
    case Accepted => Granted
    case TerminalMissing => Exited
    case _ => Denied
  }

  // ---------------------------------------------------------------------------
  // The loop
  // ---------------------------------------------------------------------------

  /** `verify_password`. `rounds` supplies the terminal and PAM outcomes round by
      round, and `now` the instant a success is recorded at. Besides the verdict
      and the new state it reports how many rounds were started (each one tries
      to open the terminal; the `Password: ` prompt shows only when it opens and
      clones) and how many times `authenticate` was called. The line the prompt
      reads is only tested for emptiness: PAM asks for the password again through
      its own conversation, which `authenticateOk` stands for. */
  method VerifyPassword(passwordRequired: bool, state: AuthState, rounds: seq<Round>, now: int)
    returns (verdict: Verdict, state': AuthState, prompts: nat, authCalls: nat)
    // No password needed: granted at once, nothing asked, nothing changed.
    ensures !passwordRequired ==>
              verdict == Granted && state' == state && prompts == 0 && authCalls == 0
    // Locked out: denied at once, nothing asked, nothing changed.
    ensures passwordRequired && state.locked ==>
              verdict == Denied && state' == state && prompts == 0 && authCalls == 0
    // Otherwise rounds run until one ends other than by a rejected password,
    // for at most three rounds.
    ensures passwordRequired && !state.locked ==>
              && 1 <= prompts <= MaxAttempts
              && (forall k :: 0 <= k < prompts - 1 ==> Classify(RoundAt(rounds, k)) == Rejected)
              && var last := Classify(RoundAt(rounds, prompts - 1));
                 && (last == Rejected ==> prompts == MaxAttempts && verdict == Denied)
                 && (last != Rejected ==> verdict == VerdictOf(last))
                 && state'.failedAttempts ==
                      state.failedAttempts + (if last == Rejected then prompts else prompts - 1)
                 && authCalls == (if Authenticates(last) then prompts else prompts - 1)
    // Bounds on what one invocation can do.
    ensures authCalls <= MaxAttempts
    ensures state.failedAttempts <= state'.failedAttempts <= state.failedAttempts + authCalls
    // Only verification records a success; the model's lockout flag is left as it was.
    ensures state'.locked == state.locked
    ensures state'.lastAuthenticated ==
              if passwordRequired && verdict == Granted then Some(now) else state.lastAuthenticated
    ensures verdict == Granted ==>
              !passwordRequired || Classify(RoundAt(rounds, prompts - 1)) == Accepted
  {
    if !passwordRequired {
      return Granted, state, 0, 0;
    }
    if CheckLockout(state) {
      return Denied, state, 0, 0;
    }
    var attempts: nat := 0;
    state' := state;
    prompts := 0;
    authCalls := 0;
    while attempts < MaxAttempts
      invariant attempts <= MaxAttempts
      invariant prompts == attempts && authCalls == attempts
      invariant state' == state.(failedAttempts := state.failedAttempts + attempts)
      invariant forall k :: 0 <= k < attempts ==> Classify(RoundAt(rounds, k)) == Rejected
      decreases MaxAttempts - attempts
    {
      // One pass of the loop body: the prompt, the PAM context, `authenticate`
      // and `acct_mgmt`, consulted in that order.
      var ending := Classify(RoundAt(rounds, prompts));
      prompts := prompts + 1;
      if Authenticates(ending) {
        authCalls := authCalls + 1;
      }
      if ending == Rejected {
        attempts := attempts + 1;
        state' := IncrementFailedAttempts(state');
        continue;
      }
      if ending == Accepted {
        state' := UpdateLastAuthenticated(state', now);
      }
      return VerdictOf(ending), state', prompts, authCalls;
    }
    verdict := Denied;
  }

  /** Absent or empty answers and missing terminals never reach PAM: such a round
      ends the loop before `authenticate`, so it records no failure. */
  lemma NoPasswordNeverReachesPam(r: Round)
    requires PromptPassword(true, r.tty) == Answer(None) ||
             PromptPassword(true, r.tty) == Answer(Some("")) ||
             PromptPassword(true, r.tty) == Exit
    ensures !Authenticates(Classify(r))
    ensures VerdictOf(Classify(r)) != Granted
  {
  }

  /** A round ends for want of a password exactly when reading failed or the
      line read holds nothing but whitespace. */
  lemma NoPasswordExactly(r: Round)
    ensures Classify(r) == NoPassword <==>
              r.tty.IoFailed? || (r.tty.LineRead? && AllWhitespace(r.tty.text))
  {
  }

  /** At end of input `read_line` leaves the line empty, so every round past the
      supplied ones counts as no password. */
  lemma EndOfInputIsNoPassword(rounds: seq<Round>, k: nat)
    requires k >= |rounds|
    ensures Classify(RoundAt(rounds, k)) == NoPassword
  {
    NoPasswordExactly(EndOfInput);
  }

  /** `authenticate` is reached exactly when a non-blank line was read and the
      PAM context was created; then a failure there is a rejected password, and
      a failure of `acct_mgmt` after it refuses the account. */
  lemma ReachesAuthenticateExactly(r: Round)
    ensures Authenticates(Classify(r)) <==>
              r.tty.LineRead? && !AllWhitespace(r.tty.text) && r.contextOk
    ensures Classify(r) == Rejected <==> Authenticates(Classify(r)) && !r.authenticateOk
    ensures Classify(r) == AccountRefused <==>
              Authenticates(Classify(r)) && r.authenticateOk && !r.accountOk
  {
    NoPasswordExactly(r);
  }

  /** Only a round that passes `authenticate` and `acct_mgmt` grants access. */
  lemma OnlyFullSuccessGrants(r: Round)
    ensures VerdictOf(Classify(r)) == Granted <==>
              (&& PromptPassword(true, r.tty).Answer?
               && PromptPassword(true, r.tty).password.Some?
               && PromptPassword(true, r.tty).password.value != []
               && r.contextOk && r.authenticateOk && r.accountOk)
  {
  }
}

=== FILE: options.dfy ===
/** The optional value Rust writes as `Option<T>`. */
module Options {

  datatype Option<+T> = None | Some(value: T)
}

=== FILE: policy.dfy ===
/**
 * The policy file and the decision made from it: the `permit` rule grammar,
 * the loading of a file's lines into an ordered rule list, and the first-match
 * scan that decides whether a request is permitted.
 *
 * Grammar of a rule line, after trimming:
 *   permit [<user> | :<group>] { as <target> | cmd <command> | <ignored> }
 * The word after `permit` is always the subject, whatever it spells.
 */
module Policy {
  import opened Options
  import opened Text

  /** One `permit` line. Absent fields leave that part of a request unconstrained,
      except the subject: a rule with neither user nor group matches nobody. */
  datatype Rule = Rule(user: Option<string>, group: Option<string>,
                       asUser: Option<string>, command: Option<string>)

  /** The loaded policy: the rules in file order. */
  datatype Config = Config(rules: seq<Rule>)

  /** Who asks to run what as whom. */
  datatype Request = Request(user: string, groups: seq<string>,
                             targetUser: string, command: string)

  const PermitKeyword: string := "permit"
  const AsKeyword: string := "as"
  const CmdKeyword: string := "cmd"

  predicate IsKeyword(t: string) {
    t == AsKeyword || t == CmdKeyword
  }

  // ---------------------------------------------------------------------------
  // Parsing one rule
  // ---------------------------------------------------------------------------

  /** What the option loop of the parser makes of the words after the subject:
      a keyword with its value, a keyword left without a value at the end of
      the line, or a word that is not a keyword and is skipped. */
  datatype Clause =
    | As(target: string)
    | Cmd(command: string)
    | Bare(keyword: string)
    | Ignored(token: string)

  function ClauseTokens(c: Clause): seq<string> {
    match c
    case As(t) => [AsKeyword, t]
    case Cmd(t) => [CmdKeyword, t]
    case Bare(k) => [k]
    case Ignored(t) => [t]
  }

  /** The words a clause list was read from. */
  function Unparse(cs: seq<Clause>): seq<string> {
    if cs == [] then [] else ClauseTokens(cs[0]) + Unparse(cs[1..])
  }

  /** Clause lists the loop can produce: skipped words are not keywords, and a
      keyword without a value can only be the last thing on the line. */
  predicate WellFormed(cs: seq<Clause>) {
    forall i :: 0 <= i < |cs| ==>
      && (cs[i].Ignored? ==> !IsKeyword(cs[i].token))
      && (cs[i].Bare? ==> IsKeyword(cs[i].keyword) && i == |cs| - 1)
  }

  predicate EndsBare(cs: seq<Clause>) {
    cs != [] && cs[|cs| - 1].Bare?
  }

  /** The loop over the option words: a keyword consumes the word after it as
      its value (even if that word is itself a keyword); other words are skipped.
      `ClausesReadBack` and `ClausesOfUnparse` state what it computes. */
  function Clauses(ts: seq<string>): seq<Clause>
    decreases |ts|
  {
    if ts == [] then []
    else if IsKeyword(ts[0]) then
      if |ts| == 1 then [Bare(ts[0])]
      else [if ts[0] == AsKeyword then As(ts[1]) else Cmd(ts[1])] + Clauses(ts[2..])
    else [Ignored(ts[0])] + Clauses(ts[1..])
  }

  /** The clauses read from a word list are well formed, and writing them back
      out gives exactly those words. */
  lemma {:induction false} ClausesReadBack(ts: seq<string>)
    ensures WellFormed(Clauses(ts))
    ensures Unparse(Clauses(ts)) == ts
    decreases |ts|
  {
    if ts != [] {
      var n := if IsKeyword(ts[0]) && |ts| >= 2 then 2 else 1;
      if IsKeyword(ts[0]) && |ts| == 1 {
        assert Clauses(ts) == [Bare(ts[0])];
      } else {
        var c := if !IsKeyword(ts[0]) then Ignored(ts[0])
                 else if ts[0] == AsKeyword then As(ts[1]) else Cmd(ts[1]);
        var rest := Clauses(ts[n..]);
        ClausesReadBack(ts[n..]);
        assert Clauses(ts) == [c] + rest;
        assert ClauseTokens(c) == ts[..n];
        assert ([c] + rest)[1..] == rest;
        assert Unparse([c] + rest) == ClauseTokens(c) + Unparse(rest);
        assert ts == ts[..n] + ts[n..];
        forall i | 0 <= i < |[c] + rest|
          ensures (([c] + rest)[i].Ignored? ==> !IsKeyword(([c] + rest)[i].token))
          ensures (([c] + rest)[i].Bare? ==> IsKeyword(([c] + rest)[i].keyword) && i == |[c] + rest| - 1)
        {
          if i > 0 {
            assert ([c] + rest)[i] == rest[i - 1];
          }
        }
      }
    }
  }

  /** The effect of one clause on the rule being built. */
  function Assign(r: Rule, c: Clause): Rule {
    match c
    case As(t) => r.(asUser := Some(t))
    case Cmd(t) => r.(command := Some(t))
    case _ => r
  }

  /** The clauses applied in line order. The subject is never touched, and a
      target or command that changes comes from one of the clauses. */
  function ApplyClauses(r: Rule, cs: seq<Clause>): (r': Rule)
    ensures r'.user == r.user && r'.group == r.group
    ensures r'.asUser == r.asUser || (r'.asUser.Some? && exists i :: 0 <= i < |cs| && cs[i] == As(r'.asUser.value))
    ensures r'.command == r.command || (r'.command.Some? && exists i :: 0 <= i < |cs| && cs[i] == Cmd(r'.command.value))
    decreases |cs|
  {
    if cs == [] then r
    else
      var r' := ApplyClauses(Assign(r, cs[0]), cs[1..]);
      assert forall i :: 0 <= i < |cs[1..]| ==> cs[1..][i] == cs[i + 1];
      r'
  }

  /** The rule opened by the subject word: `:name` names a group (colon dropped),
      anything else names a user. */
  function SubjectRule(tok: string): (r: Rule)
    ensures r.asUser == None && r.command == None
    ensures r.user.Some? != r.group.Some?
    ensures r.group.Some? <==> |tok| > 0 && tok[0] == ':'
    ensures r.group.Some? ==> tok == [':'] + r.group.value
    ensures r.user.Some? ==> r.user.value == tok
  {
    if |tok| > 0 && tok[0] == ':' then Rule(None, Some(tok[1..]), None, None)
    else Rule(Some(tok), None, None, None)
  }

  /** `parse_rule` over the words of the line. */
  function ParseWords(ts: seq<string>): (r: Option<Rule>)
    ensures r.None? <==> |ts| == 0 || ts[0] != PermitKeyword
    ensures r.Some? && |ts| == 1 ==> r.value == Rule(None, None, None, None)
    ensures r.Some? && |ts| >= 2 ==> r.value.user.Some? != r.value.group.Some?
    ensures r.Some? && |ts| >= 2 && |ts[1]| > 0 && ts[1][0] == ':' ==>
              r.value.group == Some(ts[1][1..])
    ensures r.Some? && |ts| >= 2 && !(|ts[1]| > 0 && ts[1][0] == ':') ==>
              r.value.user == Some(ts[1])
  {
    if |ts| == 0 || ts[0] != PermitKeyword then None
    else if |ts| == 1 then Some(Rule(None, None, None, None))
    else Some(ApplyClauses(SubjectRule(ts[1]), Clauses(ts[2..])))
  }

  /** `parse_rule`: split the line at whitespace and read the words. A rule
      comes only from a line whose first word is `permit`, and trimming the line
      first makes no difference. */
  function ParseRule(line: string): (r: Option<Rule>)
    ensures r.Some? <==> Words(line) != [] && Words(line)[0] == PermitKeyword
    ensures r == ParseWords(Words(Trim(line)))
  {
    WordsOfTrim(line);
    ParseWords(Words(line))
  }

  predicate IsLastAs(cs: seq<Clause>, i: int) {
    0 <= i < |cs| && cs[i].As? && forall j :: i < j < |cs| ==> !cs[j].As?
  }

  predicate IsLastCmd(cs: seq<Clause>, i: int) {
    0 <= i < |cs| && cs[i].Cmd? && forall j :: i < j < |cs| ==> !cs[j].Cmd?
  }

  /** The last `as` clause sets the target, the last `cmd` clause the command;
      without such a clause the field keeps the value it had. */
  lemma {:induction false} LastAssignmentWins(r: Rule, cs: seq<Clause>)
    ensures (forall i :: 0 <= i < |cs| ==> !cs[i].As?) ==> ApplyClauses(r, cs).asUser == r.asUser
    ensures (forall i :: 0 <= i < |cs| ==> !cs[i].Cmd?) ==> ApplyClauses(r, cs).command == r.command
    ensures forall i :: IsLastAs(cs, i) ==> ApplyClauses(r, cs).asUser == Some(cs[i].target)
    ensures forall i :: IsLastCmd(cs, i) ==> ApplyClauses(r, cs).command == Some(cs[i].command)
    decreases |cs|
  {
    if cs != [] {
      var r1 := Assign(r, cs[0]);
      var rest := cs[1..];
      LastAssignmentWins(r1, rest);
      assert ApplyClauses(r, cs) == ApplyClauses(r1, rest);
      forall i | IsLastAs(cs, i) ensures ApplyClauses(r, cs).asUser == Some(cs[i].target) {
        if i == 0 {
          assert forall j :: 0 <= j < |rest| ==> !rest[j].As? by {
            forall j | 0 <= j < |rest| ensures !rest[j].As? {
              assert rest[j] == cs[j + 1];
            }
          }
        } else {
          assert IsLastAs(rest, i - 1);
        }
      }
      forall i | IsLastCmd(cs, i) ensures ApplyClauses(r, cs).command == Some(cs[i].command) {
        if i == 0 {
          assert forall j :: 0 <= j < |rest| ==> !rest[j].Cmd? by {
            forall j | 0 <= j < |rest| ensures !rest[j].Cmd? {
              assert rest[j] == cs[j + 1];
            }
          }
        } else {
          assert IsLastCmd(rest, i - 1);
        }
      }
      if forall i :: 0 <= i < |cs| ==> !cs[i].As? {
        assert forall j :: 0 <= j < |rest| ==> !rest[j].As? by {
          forall j | 0 <= j < |rest| ensures !rest[j].As? {
            assert rest[j] == cs[j + 1];
          }
        }
      }
      if forall i :: 0 <= i < |cs| ==> !cs[i].Cmd? {
        assert forall j :: 0 <= j < |rest| ==> !rest[j].Cmd? by {
          forall j | 0 <= j < |rest| ensures !rest[j].Cmd? {
            assert rest[j] == cs[j + 1];
          }
        }
      }
    }
  }

  /** The target and command of a parsed rule come from the last `as` and the
      last `cmd` clause of its line, and are absent when there is none. */
  lemma ParsedOptions(ts: seq<string>)
    requires |ts| >= 2 && ts[0] == PermitKeyword
    ensures ParseWords(ts) == Some(ApplyClauses(SubjectRule(ts[1]), Clauses(ts[2..])))
    ensures var cs := Clauses(ts[2..]);
            var r := ParseWords(ts).value;
            && ((forall i :: 0 <= i < |cs| ==> !cs[i].As?) ==> r.asUser == None)
            && ((forall i :: 0 <= i < |cs| ==> !cs[i].Cmd?) ==> r.command == None)
            && (forall i :: IsLastAs(cs, i) ==> r.asUser == Some(cs[i].target))
            && (forall i :: IsLastCmd(cs, i) ==> r.command == Some(cs[i].command))
  {
    var cs := Clauses(ts[2..]);
    var r0 := SubjectRule(ts[1]);
    LastAssignmentWins(r0, cs);
  }

  /** Reading the words back from a clause list gives that clause list again:
      together with `ClausesReadBack`, the words after the subject and the
      well-formed clause lists are in one-to-one correspondence. */
  lemma {:induction false} ClausesOfUnparse(cs: seq<Clause>)
    requires WellFormed(cs)
    ensures Clauses(Unparse(cs)) == cs
    decreases |cs|
  {
    if cs != [] {
      var rest := cs[1..];
      assert WellFormed(rest) by {
        forall i | 0 <= i < |rest|
          ensures (rest[i].Ignored? ==> !IsKeyword(rest[i].token))
          ensures (rest[i].Bare? ==> IsKeyword(rest[i].keyword) && i == |rest| - 1)
        {
          assert rest[i] == cs[i + 1];
        }
      }
      ClausesOfUnparse(rest);
      var ts := Unparse(cs);
      assert ts == ClauseTokens(cs[0]) + Unparse(rest);
      match cs[0]
      case As(t) =>
        assert ts[2..] == Unparse(rest);
      case Cmd(t) =>
        assert ts[2..] == Unparse(rest);
      case Bare(k) =>
        assert |cs| == 1;
        assert ts == [k];
      case Ignored(t) =>
        assert ts[1..] == Unparse(rest);
    }
  }

  /** A complete clause in front of some words is read as that clause, followed
      by whatever those words read as. */
  lemma ClausesOfClauseThen(c: Clause, ts: seq<string>)
    requires !c.Bare? && (c.Ignored? ==> !IsKeyword(c.token))
    ensures Clauses(ClauseTokens(c) + ts) == [c] + Clauses(ts)
  {
    var all := ClauseTokens(c) + ts;
    match c {
    case As(t) =>
      assert all[0] == AsKeyword && all[1] == t && all[2..] == ts;
    case Cmd(t) =>
      assert all[0] == CmdKeyword && all[1] == t && all[2..] == ts;
    case Ignored(t) =>
      assert all[0] == t && all[1..] == ts;
    }
  }

  /** Every clause has its value: no keyword waits for one. */
  predicate Complete(cs: seq<Clause>) {
    forall i :: 0 <= i < |cs| ==> !cs[i].Bare? && (cs[i].Ignored? ==> !IsKeyword(cs[i].token))
  }

  /** Words that follow complete clauses are read on their own: a line whose
      clauses do not end with a keyword still waiting for its value reads the
      same however it continues. */
  lemma {:induction false} ClausesOfAppend(cs: seq<Clause>, b: seq<string>)
    requires Complete(cs)
    ensures Clauses(Unparse(cs) + b) == cs + Clauses(b)
    decreases |cs|
  {
    if cs == [] {
      assert Unparse(cs) + b == b;
      assert cs + Clauses(b) == Clauses(b);
    } else {
      var c := cs[0];
      var rest := cs[1..];
      assert Complete(rest) by {
        forall i | 0 <= i < |rest|
          ensures !rest[i].Bare? && (rest[i].Ignored? ==> !IsKeyword(rest[i].token))
        {
          assert rest[i] == cs[i + 1];
        }
      }
      var tailWords := Unparse(rest) + b;
      calc {
        Clauses(Unparse(cs) + b);
        { assert Unparse(cs) + b == ClauseTokens(c) + tailWords; }
        Clauses(ClauseTokens(c) + tailWords);
        { ClausesOfClauseThen(c, tailWords); }
        [c] + Clauses(tailWords);
        { ClausesOfAppend(rest, b); }
        [c] + (rest + Clauses(b));
        { assert cs == [c] + rest; }
        cs + Clauses(b);
      }
    }
  }

  lemma {:induction false} ApplyClausesOfAppend(r: Rule, x: seq<Clause>, y: seq<Clause>)
    ensures ApplyClauses(r, x + y) == ApplyClauses(ApplyClauses(r, x), y)
    decreases |x|
  {
    if x == [] {
      assert x + y == y;
    } else {
      assert (x + y)[1..] == x[1..] + y;
      ApplyClausesOfAppend(Assign(r, x[0]), x[1..], y);
    }
  }

  /** A word added at the end of a rule line that already names its subject
      changes nothing when it is a keyword (it has no value) or not a keyword (it
      is skipped), provided the line did not already end with a keyword waiting
      for its value. */
  lemma TrailingWordChangesNothing(ts: seq<string>, t: string)
    requires |ts| >= 2 && ts[0] == PermitKeyword
    requires !EndsBare(Clauses(ts[2..]))
    ensures ParseWords(ts + [t]) == ParseWords(ts)
  {
    var opts := ts[2..];
    var cs := Clauses(opts);
    ClausesReadBack(opts);
    assert Complete(cs);
    assert (ts + [t])[2..] == Unparse(cs) + [t];
    ClausesOfAppend(cs, [t]);
    var last := if IsKeyword(t) then Bare(t) else Ignored(t);
    assert Clauses([t]) == [last] by {
      assert [t][1..] == [];
      assert Clauses([]) == [];
    }
    ApplyClausesOfAppend(SubjectRule(ts[1]), cs, [last]);
  }

  /** The word after `permit` is the subject even when it spells a keyword:
      `permit as X` names the user "as" and sets no target. */
  lemma KeywordAsSubject(k: string, x: string)
    requires IsKeyword(k)
    ensures ParseWords([PermitKeyword, k, x]) == Some(Rule(Some(k), None, None, None))
  {
    var ts := [PermitKeyword, k, x];
    assert ts[2..] == [x];
    assert k != "" && k[0] != ':';
    var r0 := SubjectRule(k);
    assert r0 == Rule(Some(k), None, None, None);
    var cs := Clauses([x]);
    assert [x][1..] == [];
    assert Clauses([]) == [];
    assert cs == [if IsKeyword(x) then Bare(x) else Ignored(x)];
    assert Assign(r0, cs[0]) == r0;
    assert cs[1..] == [];
    assert ApplyClauses(r0, cs) == r0;
  }

  // ---------------------------------------------------------------------------
  // Loading the policy file
  // ---------------------------------------------------------------------------

  /** The rule one line of the file contributes: none for a blank line or a
      comment, otherwise whatever `parse_rule` makes of the trimmed line. */
  function LineRule(line: string): (r: Option<Rule>)
    ensures r.Some? ==> r == ParseRule(line)
    ensures AllWhitespace(line) ==> r.None?
  {
    var t := Trim(line);
    if t == [] || t[0] == '#' then None else ParseRule(t)
  }

  /** A line yields a rule exactly when its first word is `permit`, and trimming
      it first does not change the rule. So blank and comment lines never yield
      one. */
  lemma LineRuleMeaning(line: string)
    ensures LineRule(line).Some? <==> Words(line) != [] && Words(line)[0] == PermitKeyword
    ensures LineRule(line).Some? ==> LineRule(line) == ParseRule(line)
    ensures Trim(line) == [] || Trim(line)[0] == '#' ==> LineRule(line).None?
  {
    var t := Trim(line);
    WordsOfTrim(line);
    if t != [] && t[0] == '#' {
      FirstWordStart(t);
    }
  }

  /** The rules one line contributes: none or one. */
  function LineRules(line: string): seq<Rule> {
    match LineRule(line)
    case Some(r) => [r]
    case None => []
  }

  /** `Config::load` over the lines of the file: each line contributes at most
      one rule. */
  function Load(lines: seq<string>): (c: Config)
    ensures |c.rules| <= |lines|
  {
    if lines == [] then Config([])
    else Config(LineRules(lines[0]) + Load(lines[1..]).rules)
  }

  /** Every loaded rule is what some line of the file yields. */
  lemma {:induction false} LoadedRulesComeFromLines(lines: seq<string>)
    ensures forall k :: 0 <= k < |Load(lines).rules| ==>
              exists i :: 0 <= i < |lines| && LineRule(lines[i]) == Some(Load(lines).rules[k])
    decreases |lines|
  {
    if lines != [] {
      LoadedRulesComeFromLines(lines[1..]);
      var here := LineRules(lines[0]);
      var rest := Load(lines[1..]).rules;
      assert Load(lines).rules == here + rest;
      forall k | 0 <= k < |Load(lines).rules|
        ensures exists i :: 0 <= i < |lines| && LineRule(lines[i]) == Some(Load(lines).rules[k])
      {
        if k < |here| {
          assert LineRule(lines[0]) == Some((here + rest)[k]);
        } else {
          assert (here + rest)[k] == rest[k - |here|];
          var i :| 0 <= i < |lines[1..]| && LineRule(lines[1..][i]) == Some(rest[k - |here|]);
          assert lines[1..][i] == lines[i + 1];
        }
      }
    } else {
      assert Load(lines).rules == [];
    }
  }

  /** Rules keep file order: loading two stretches of lines one after the other
      gives the rules of the first followed by those of the second. */
  lemma {:induction false} LoadKeepsFileOrder(a: seq<string>, b: seq<string>)
    ensures Load(a + b).rules == Load(a).rules + Load(b).rules
    decreases |a|
  {
    if a == [] {
      assert a + b == b;
    } else {
      assert (a + b)[1..] == a[1..] + b;
      LoadKeepsFileOrder(a[1..], b);
    }
  }

  /** A blank or comment line contributes nothing wherever it stands. */
  lemma SkippedLineContributesNothing(a: seq<string>, line: string, b: seq<string>)
    requires Trim(line) == [] || Trim(line)[0] == '#'
    ensures Load(a + [line] + b) == Load(a + b)
  {
    assert LineRule(line) == None;
    assert Load([line]).rules == [] by {
      assert [line][1..] == [];
    }
    LoadKeepsFileOrder(a + [line], b);
    LoadKeepsFileOrder(a, [line]);
    LoadKeepsFileOrder(a, b);
    assert Load(a + [line]).rules == Load(a).rules;
  }

  // ---------------------------------------------------------------------------
  // The decision
  // ---------------------------------------------------------------------------

  /** The subject test: the rule's user is the actor, or else its group is one
      of the actor's groups. */
  predicate SubjectMatches(rule: Rule, user: string, groups: seq<string>) {
    rule.user == Some(user) || (rule.group.Some? && rule.group.value in groups)
  }

  /** All of a rule's tests pass for the request. */
  predicate Matches(rule: Rule, req: Request): (b: bool)
    ensures b ==> rule.user.Some? || rule.group.Some?
    ensures b && rule.asUser.Some? ==> req.targetUser == rule.asUser.value
    ensures b && rule.command.Some? ==> req.command == rule.command.value
    ensures rule.asUser.None? && rule.command.None? ==> (b <==> SubjectMatches(rule, req.user, req.groups))
  {
    && SubjectMatches(rule, req.user, req.groups)
    && (rule.asUser.None? || rule.asUser.value == req.targetUser)
    && (rule.command.None? || rule.command.value == req.command)
  }

  /** The reference meaning of the decision: some rule of the list matches. */
  predicate Permits(rules: seq<Rule>, req: Request) {
    exists i :: 0 <= i < |rules| && Matches(rules[i], req)
  }

  /** `Config::is_permitted`: scan the rules in order and stop at the first one
      that matches. */
  method IsPermitted(config: Config, user: string, groups: seq<string>,
                     targetUser: string, command: string)
    returns (permitted: bool)
    ensures permitted <==>
              exists i :: 0 <= i < |config.rules| &&
                Matches(config.rules[i], Request(user, groups, targetUser, command))
  {
    var req := Request(user, groups, targetUser, command);
    var i := 0;
    while i < |config.rules|
      invariant 0 <= i <= |config.rules|
      invariant forall j :: 0 <= j < i ==> !Matches(config.rules[j], req)
    {
      var rule := config.rules[i];
      var userMatch := if rule.user.Some? && rule.user.value == user then true
                       else if rule.group.Some? && rule.group.value in groups then true
                       else false;
      if !userMatch {
        i := i + 1;
        continue;
      }
      if rule.asUser.Some? && rule.asUser.value != targetUser {
        i := i + 1;
        continue;
      }
      if rule.command.Some? && rule.command.value != command {
        i := i + 1;
        continue;
      }
      return true;
    }
    return false;
  }

  /** A rule naming neither a user nor a group matches no request at all. */
  lemma SubjectlessRuleMatchesNobody(rule: Rule, req: Request)
    requires rule.user.None? && rule.group.None?
    ensures !Matches(rule, req)
  {
  }

  /** A line holding only `permit` yields a rule, and that rule permits nothing. */
  lemma BarePermitPermitsNothing(req: Request)
    ensures ParseWords([PermitKeyword]).Some?
    ensures !Matches(ParseWords([PermitKeyword]).value, req)
  {
  }

  /** A rule naming both a user and a group accepts the actor on either count. */
  lemma EitherSubjectSuffices(rule: Rule, req: Request)
    requires rule.user.Some? && rule.group.Some?
    ensures SubjectMatches(rule, req.user, req.groups) <==>
              (rule.user.value == req.user || rule.group.value in req.groups)
  {
  }

  /** The user arm's guard falls through: a rule naming some other user still
      matches through its group. */
  lemma GroupArmAfterOtherUser(rule: Rule, req: Request)
    requires rule.user.Some? && rule.user.value != req.user
    requires rule.group.Some? && rule.group.value in req.groups
    ensures SubjectMatches(rule, req.user, req.groups)
  {
  }

  /** A rule matches whenever its subject does and every target or command it
      names agrees with the request. */
  lemma MatchesWhenAllTestsPass(rule: Rule, req: Request)
    requires SubjectMatches(rule, req.user, req.groups)
    requires rule.asUser.Some? ==> rule.asUser.value == req.targetUser
    requires rule.command.Some? ==> rule.command.value == req.command
    ensures Matches(rule, req)
  {
  }

  /** End to end: `permit u as t cmd c` lets `u` run `c` as `t`, whatever its
      groups. */
  lemma FullRuleMatches(u: string, t: string, c: string, groups: seq<string>)
    requires u == [] || u[0] != ':'
    ensures ParseWords([PermitKeyword, u, AsKeyword, t, CmdKeyword, c]).Some?
    ensures Matches(ParseWords([PermitKeyword, u, AsKeyword, t, CmdKeyword, c]).value,
                    Request(u, groups, t, c))
  {
    var ts := [PermitKeyword, u, AsKeyword, t, CmdKeyword, c];
    var opts := [AsKeyword, t, CmdKeyword, c];
    assert ts[2..] == opts;
    assert opts[2..] == [CmdKeyword, c];
    assert [CmdKeyword, c][2..] == [];
    var cs := [As(t), Cmd(c)];
    assert Clauses([CmdKeyword, c]) == [Cmd(c)] + Clauses([]);
    assert Clauses(opts) == [As(t)] + Clauses([CmdKeyword, c]);
    assert Clauses(opts) == cs;
    var r0 := SubjectRule(u);
    assert r0 == Rule(Some(u), None, None, None);
    assert cs[1..] == [Cmd(c)];
    assert [Cmd(c)][1..] == [];
    assert ApplyClauses(r0, cs) == Rule(Some(u), None, Some(t), Some(c));
  }

  /** A present target or command must equal the request's exactly; an absent
      one accepts any value. */
  lemma TargetAndCommandTests(rule: Rule, req: Request, target: string, command: string)
    requires Matches(rule, req)
    ensures rule.asUser.Some? ==> rule.asUser.value == req.targetUser
    ensures rule.command.Some? ==> rule.command.value == req.command
    ensures rule.asUser.None? ==> Matches(rule, req.(targetUser := target))
    ensures rule.command.None? ==> Matches(rule, req.(command := command))
  {
  }

  /** There is no deny and no priority: the decision depends only on which rules
      are present, not on their order or on how often each appears. */
  lemma PermitsIgnoresOrderAndDuplicates(a: seq<Rule>, b: seq<Rule>, req: Request)
    requires forall r :: r in a <==> r in b
    ensures Permits(a, req) <==> Permits(b, req)
  {
    if Permits(a, req) {
      var i :| 0 <= i < |a| && Matches(a[i], req);
      assert a[i] in b;
      var j :| 0 <= j < |b| && b[j] == a[i];
    }
    if Permits(b, req) {
      var j :| 0 <= j < |b| && Matches(b[j], req);
      assert b[j] in a;
      var i :| 0 <= i < |a| && a[i] == b[j];
    }
  }

  /** In particular, permuting the rules never changes the decision. */
  lemma PermitsIgnoresPermutation(a: seq<Rule>, b: seq<Rule>, req: Request)
    requires multiset(a) == multiset(b)
    ensures Permits(a, req) <==> Permits(b, req)
  {
    forall r ensures r in a <==> r in b {
      assert r in a <==> r in multiset(a);
      assert r in b <==> r in multiset(b);
    }
    PermitsIgnoresOrderAndDuplicates(a, b, req);
  }

  /** Adding a rule anywhere never withdraws a permission. */
  lemma AddingRuleKeepsPermission(a: seq<Rule>, k: nat, rule: Rule, req: Request)
    requires k <= |a|
    requires Permits(a, req)
    ensures Permits(a[..k] + [rule] + a[k..], req)
  {
    var b := a[..k] + [rule] + a[k..];
    var i :| 0 <= i < |a| && Matches(a[i], req);
    if i < k {
      assert b[i] == a[i];
    } else {
      assert b[i + 1] == a[i];
    }
  }

  /** An empty policy permits nothing. */
  lemma EmptyPolicyPermitsNothing(req: Request)
    ensures !Permits([], req)
  {
  }

  lemma PermitsOfAppend(x: seq<Rule>, y: seq<Rule>, req: Request)
    ensures Permits(x + y, req) <==> Permits(x, req) || Permits(y, req)
  {
    if Permits(x + y, req) {
      var k :| 0 <= k < |x + y| && Matches((x + y)[k], req);
      if k >= |x| {
        assert (x + y)[k] == y[k - |x|];
      }
    }
    if Permits(x, req) {
      var k :| 0 <= k < |x| && Matches(x[k], req);
      assert (x + y)[k] == x[k];
    }
    if Permits(y, req) {
      var k :| 0 <= k < |y| && Matches(y[k], req);
      assert (x + y)[|x| + k] == y[k];
    }
  }

  /** One line of the file yields a rule that matches the request. */
  predicate LineGrants(line: string, req: Request) {
    LineRule(line).Some? && Matches(LineRule(line).value, req)
  }

  lemma PermitsOfLineRules(line: string, req: Request)
    ensures Permits(LineRules(line), req) <==> LineGrants(line, req)
  {
    if LineRule(line).Some? {
      assert LineRules(line)[0] == LineRule(line).value;
    }
  }

  /** The decision over a loaded file: permitted exactly when some line of the
      file yields a rule that matches, wherever that line stands. */
  lemma {:induction false} LoadedPolicyDecision(lines: seq<string>, req: Request)
    ensures Permits(Load(lines).rules, req) <==>
              exists i :: 0 <= i < |lines| && LineGrants(lines[i], req)
    decreases |lines|
  {
    if lines == [] {
      assert Load(lines).rules == [];
    } else {
      LoadedPolicyDecision(lines[1..], req);
      var here := LineRules(lines[0]);
      var rest := Load(lines[1..]).rules;
      assert Load(lines).rules == here + rest;
      PermitsOfAppend(here, rest, req);
      PermitsOfLineRules(lines[0], req);
      if exists i :: 0 <= i < |lines[1..]| && LineGrants(lines[1..][i], req) {
        var i :| 0 <= i < |lines[1..]| && LineGrants(lines[1..][i], req);
        assert lines[1..][i] == lines[i + 1];
      }
      if exists i :: 0 <= i < |lines| && LineGrants(lines[i], req) {
        var i :| 0 <= i < |lines| && LineGrants(lines[i], req);
        if i > 0 {
          assert lines[1..][i - 1] == lines[i];
        }
      }
    }
  }
}

=== FILE: text.dfy ===
/**
 * The string primitives the policy parser and the password prompt rely on:
 * Rust's `char::is_whitespace`, `str::trim`, `str::trim_end` and
 * `str::split_whitespace`, over strings as sequences of Unicode scalar values.
 */
module Text {

  /** Unicode White_Space, the character class `char::is_whitespace` tests. */
  predicate IsWhitespace(c: char) {
    || ('\t' <= c <= '\r')
    || c == ' '
    || c == '\U{0085}'
    || c == '\U{00A0}'
    || c == '\U{1680}'
    || ('\U{2000}' <= c <= '\U{200A}')
    || c == '\U{2028}'
    || c == '\U{2029}'
    || c == '\U{202F}'
    || c == '\U{205F}'
    || c == '\U{3000}'
  }

  predicate AllWhitespace(s: string) {
    forall i :: 0 <= i < |s| ==> IsWhitespace(s[i])
  }

  /** A word: a non-empty run of characters none of which is whitespace. */
  predicate IsWord(w: string) {
    |w| > 0 && forall i :: 0 <= i < |w| ==> !IsWhitespace(w[i])
  }

  /** The number of whitespace characters `s` starts with. */
  function Indent(s: string): (n: nat)
    ensures n <= |s|
    ensures AllWhitespace(s[..n])
    ensures n == |s| || !IsWhitespace(s[n])
  {
    if s != [] && IsWhitespace(s[0]) then 1 + Indent(s[1..]) else 0
  }

  /** Where the trailing whitespace of `s` begins. */
  function ContentEnd(s: string): (n: nat)
    ensures n <= |s|
    ensures AllWhitespace(s[n..])
    ensures n == 0 || !IsWhitespace(s[n - 1])
  {
    if s != [] && IsWhitespace(s[|s| - 1]) then ContentEnd(s[..|s| - 1]) else |s|
  }

  /** `str::trim_end`: drops the trailing whitespace and keeps the rest intact. */
  function TrimEnd(s: string): (r: string)
    ensures |r| <= |s| && r == s[..|r|]
    ensures AllWhitespace(s[|r|..])
    ensures r == [] || !IsWhitespace(r[|r| - 1])
  {
    s[..ContentEnd(s)]
  }

  /** `str::trim`: drops whitespace at both ends and keeps the middle intact. */
  function Trim(s: string): (r: string)
    ensures exists i :: 0 <= i <= |s| - |r| && r == s[i..i + |r|]
                        && AllWhitespace(s[..i]) && AllWhitespace(s[i + |r|..])
    ensures r == [] || (!IsWhitespace(r[0]) && !IsWhitespace(r[|r| - 1]))
    ensures r == [] <==> AllWhitespace(s)
  {
    var i := Indent(s);
    var t := s[i..];
    var e := ContentEnd(t);
    assert t[..e] == s[i..i + e];
    assert s[i + e..] == t[e..];
    assert e == 0 ==> AllWhitespace(s) by {
      if e == 0 {
        assert s == s[..i] + t;
      }
    }
    t[..e]
  }

  /** The characters of `s` that are not whitespace, in order. */
  function Visible(s: string): string {
    if s == [] then []
    else (if IsWhitespace(s[0]) then [] else [s[0]]) + Visible(s[1..])
  }

  function Concat(ws: seq<string>): string {
    if ws == [] then [] else ws[0] + Concat(ws[1..])
  }

  /** The word being read, emitted when whitespace or the end of the string
      closes it; nothing when no word was open. */
  function Flush(cur: string): seq<string> {
    if cur == [] then [] else [cur]
  }

  /** The scan behind `str::split_whitespace`: `cur` holds the characters of the
      word read so far, and each whitespace character closes it. */
  function WordsFrom(s: string, cur: string): seq<string>
    decreases |s|
  {
    if s == [] then Flush(cur)
    else if IsWhitespace(s[0]) then Flush(cur) + WordsFrom(s[1..], [])
    else WordsFrom(s[1..], cur + [s[0]])
  }

  /** `str::split_whitespace`: the maximal whitespace-free runs of `s`, in order. */
  function Words(s: string): seq<string> {
    WordsFrom(s, [])
  }

  lemma {:induction false} WordsFromAreWords(s: string, cur: string)
    requires forall i :: 0 <= i < |cur| ==> !IsWhitespace(cur[i])
    ensures forall i :: 0 <= i < |WordsFrom(s, cur)| ==> IsWord(WordsFrom(s, cur)[i])
    ensures WordsFrom(s, cur) == [] <==> cur == [] && AllWhitespace(s)
    decreases |s|
  {
    if s != [] {
      if IsWhitespace(s[0]) {
        WordsFromAreWords(s[1..], []);
        var rest := WordsFrom(s[1..], []);
        assert WordsFrom(s, cur) == Flush(cur) + rest;
        forall i | 0 <= i < |Flush(cur) + rest| ensures IsWord((Flush(cur) + rest)[i]) {
          if i >= |Flush(cur)| {
            assert (Flush(cur) + rest)[i] == rest[i - |Flush(cur)|];
          }
        }
        if AllWhitespace(s[1..]) {
          forall k | 0 <= k < |s| ensures IsWhitespace(s[k]) {
            if k > 0 { assert s[k] == s[1..][k - 1]; }
          }
        }
      } else {
        var cur' := cur + [s[0]];
        assert forall i :: 0 <= i < |cur'| ==> !IsWhitespace(cur'[i]);
        WordsFromAreWords(s[1..], cur');
      }
    }
  }

  /** Every word is non-empty and free of whitespace, and there are no words
      exactly when the string is all whitespace. */
  lemma WordsAreWords(s: string)
    ensures forall i :: 0 <= i < |Words(s)| ==> IsWord(Words(s)[i])
    ensures Words(s) == [] <==> AllWhitespace(s)
  {
    WordsFromAreWords(s, []);
  }

  lemma {:induction false} ConcatOfAppend(x: seq<string>, y: seq<string>)
    ensures Concat(x + y) == Concat(x) + Concat(y)
    decreases |x|
  {
    if x == [] {
      assert x + y == y;
    } else {
      assert (x + y)[1..] == x[1..] + y;
      ConcatOfAppend(x[1..], y);
    }
  }

  lemma {:induction false} WordsFromKeepVisible(s: string, cur: string)
    ensures Concat(WordsFrom(s, cur)) == cur + Visible(s)
    decreases |s|
  {
    assert Concat(Flush(cur)) == cur by {
      if cur != [] {
        assert [cur][1..] == [];
      }
    }
    if s != [] {
      if IsWhitespace(s[0]) {
        WordsFromKeepVisible(s[1..], []);
        ConcatOfAppend(Flush(cur), WordsFrom(s[1..], []));
        assert Visible(s) == Visible(s[1..]);
      } else {
        WordsFromKeepVisible(s[1..], cur + [s[0]]);
        assert Visible(s) == [s[0]] + Visible(s[1..]);
      }
    }
  }

  /** The words, run together, are exactly the visible characters of `s`: no
      character is lost, duplicated or moved. */
  lemma WordsKeepVisible(s: string)
    ensures Concat(Words(s)) == Visible(s)
  {
    WordsFromKeepVisible(s, []);
  }

  lemma {:induction false} WordsFromSplitAtWhitespace(a: string, c: char, b: string, cur: string)
    requires IsWhitespace(c)
    ensures WordsFrom(a + [c] + b, cur) == WordsFrom(a, cur) + WordsFrom(b, [])
    decreases |a|
  {
    var s := a + [c] + b;
    if a == [] {
      assert s[1..] == b;
    } else if IsWhitespace(a[0]) {
      assert s[1..] == a[1..] + [c] + b;
      WordsFromSplitAtWhitespace(a[1..], c, b, []);
    } else {
      assert s[1..] == a[1..] + [c] + b;
      WordsFromSplitAtWhitespace(a[1..], c, b, cur + [a[0]]);
    }
  }

  /** Splitting at a whitespace character splits the word list there. */
  lemma WordsSplitAtWhitespace(a: string, c: char, b: string)
    requires IsWhitespace(c)
    ensures Words(a + [c] + b) == Words(a) + Words(b)
  {
    WordsFromSplitAtWhitespace(a, c, b, []);
  }

  lemma {:induction false} WordsFromWord(w: string, cur: string)
    requires forall i :: 0 <= i < |w| ==> !IsWhitespace(w[i])
    ensures WordsFrom(w, cur) == Flush(cur + w)
    decreases |w|
  {
    if w == [] {
      assert cur + w == cur;
    } else {
      assert cur + [w[0]] + w[1..] == cur + w;
      WordsFromWord(w[1..], cur + [w[0]]);
    }
  }

  /** A single word splits into itself. */
  lemma WordsOfWord(w: string)
    requires IsWord(w)
    ensures Words(w) == [w]
  {
    WordsFromWord(w, []);
    assert [] + w == w;
  }

  lemma {:induction false} WordsIgnoreLeadingWhitespace(p: string, x: string)
    requires AllWhitespace(p)
    ensures Words(p + x) == Words(x)
  {
    if p == [] {
      assert p + x == x;
    } else {
      var pre := p[..|p| - 1];
      assert p + x == pre + [p[|p| - 1]] + x;
      assert AllWhitespace(pre) by {
        forall k | 0 <= k < |pre| ensures IsWhitespace(pre[k]) {
          assert pre[k] == p[k];
        }
      }
      WordsAreWords(pre);
      WordsSplitAtWhitespace(pre, p[|p| - 1], x);
    }
  }

  lemma {:induction false} WordsIgnoreTrailingWhitespace(x: string, p: string)
    requires AllWhitespace(p)
    ensures Words(x + p) == Words(x)
  {
    if p == [] {
      assert x + p == x;
    } else {
      assert x + p == x + [p[0]] + p[1..];
      assert AllWhitespace(p[1..]) by {
        forall k | 0 <= k < |p[1..]| ensures IsWhitespace(p[1..][k]) {
          assert p[1..][k] == p[k + 1];
        }
      }
      WordsAreWords(p[1..]);
      WordsSplitAtWhitespace(x, p[0], p[1..]);
    }
  }

  /** Trimming a line does not change how it splits into words. */
  lemma WordsOfTrim(s: string)
    ensures Words(Trim(s)) == Words(s)
  {
    var i := Indent(s);
    var t := s[i..];
    var e := ContentEnd(t);
    calc {
      Words(Trim(s));
      Words(t[..e]);
      { assert t == t[..e] + t[e..];
        WordsIgnoreTrailingWhitespace(t[..e], t[e..]); }
      Words(t);
      { assert s == s[..i] + t;
        WordsIgnoreLeadingWhitespace(s[..i], t); }
      Words(s);
    }
  }

  lemma {:induction false} WordsFromFirst(s: string, cur: string)
    requires cur != []
    ensures WordsFrom(s, cur) != [] && WordsFrom(s, cur)[0] != [] && WordsFrom(s, cur)[0][0] == cur[0]
    decreases |s|
  {
    if s != [] && !IsWhitespace(s[0]) {
      WordsFromFirst(s[1..], cur + [s[0]]);
    }
  }

  /** A string that starts with a visible character has that character opening its first word. */
  lemma FirstWordStart(s: string)
    requires s != [] && !IsWhitespace(s[0])
    ensures Words(s) != [] && Words(s)[0] != [] && Words(s)[0][0] == s[0]
  {
    assert [] + [s[0]] == [s[0]];
    WordsFromFirst(s[1..], [s[0]]);
  }
}
